=== FILE: README.md ===
# headr and echor, modelled in Dafny

This project models the core of two small command-line tools from a Rust
exercise repository.

- **headr** is a `head` clone. `parse_positive_int` validates the `-n`/`-c`
  counts. `open` resolves a name to standard input (`-`) or a file. `run`
  walks the list of names in order. A name that cannot be opened gets
  `name: cause` on standard error and the loop goes on. For a name that
  opens, a `==> name <==` header is printed when the list holds more than
  one name, with a blank line before it unless the name is first in the
  list. Then the tool prints either one `read` of at most N bytes, decoded
  permissively as UTF-8 (`-c`), or up to N lines read with `read_line`
  (`-n`). A read error ends the run with that error.
- **echor** is an `echo` clone. It prints its words joined by single spaces,
  followed by a newline unless `-n` is given.

Layout:

- `wrappers.dfy`: `Option` and `Result`.
- `seqs.dfy`: regrouping of concatenations and slices, stated once over
  abstract sequences.
- `utf8.dfy`: well-formed UTF-8 as RFC 3629 defines it, and the lossy
  decoding of `String::from_utf8_lossy`. Each maximal ill-formed subpart
  becomes U+FFFD (bytes EF BF BD).
- `lines.dfy`: splitting a byte stream into newline-terminated lines.
- `headr_parse.dfy`: `parse_positive_int`, with Rust's `usize::from_str`
  written out (an optional `+`, then decimal digits, at most `usize::MAX`).
- `headr_io.dfy`: what headr touches.
  - A `Source` is a stream's bytes plus how it ends (end of input or an OS
    error), plus the largest amount one `read` call returns, so short reads
    are modelled.
  - `Env` is standard input plus the file system.
  - `Open` is `open`.
  - The classes `Reader` (a stream being consumed, with `read_line` and
    `read`) and `Console` (standard output and standard error as
    accumulated bytes).
- `headr_spec.dfy`: what `run` writes, as functions. `Steps` follows the
  loop over the names. It comes with the lemmas for the header rule, the two
  emission modes, per-name isolation of open errors, and the abort on a read
  error.
- `headr_run.dfy`: `run` itself as imperative methods over `Reader` and
  `Console`. They are proved to write exactly what `headr_spec.dfy` says.
- `echor.dfy`: echor's output expression, with `Split` as the inverse of
  the join.

Everything headr reads or writes is bytes (`seq<byte>`): file names, OS error
text, file contents, standard output and standard error. The program's
output is modelled as the bytes it writes, and a panic or process exit is not
modelled.

## Model

| member | source | states |
|---|---|---|
| HeadrParse.ParseUsize | headr/src/lib.rs:130 | `str::parse::<usize>` yields n exactly when the text spells n with n at most 2^64-1, where a spelling of n is an optional `+`, any number of leading zeros, then n's decimal digits; a text that spells no such value is rejected |
| HeadrParse.ParsePositiveInt | headr/src/lib.rs:129-134 | Ok(n) only when the text spells n (optional `+`, leading zeros, decimal digits) with n in 1..=usize::MAX; Err only when the text spells no value in that range, and the error is then the input text verbatim |
| HeadrParse.SpellingDigits | headr/src/lib.rs:130 | every spelling of n, once the optional `+` is dropped, is a non-empty string of decimal digits whose value is n |
| HeadrParse.DigitsAreSpelling | headr/src/lib.rs:130 | conversely, a text whose part after the optional `+` is a non-empty digit string spells that string's value |
| HeadrParse.NoSpelling | headr/src/lib.rs:130-132 | a text whose part after the optional `+` is empty, holds a non-digit or exceeds usize::MAX spells no value `usize` can hold |
| HeadrParse.DecimalReadsBack | headr/src/lib.rs:130 | the canonical decimal spelling of n is all digits, has no leading zero when n > 0, and reads back as n |
| HeadrParse.ZerosIgnored | headr/src/lib.rs:130 | leading zeros do not change the value a digit string parses to |
| HeadrParse.CanonicalSpelling | headr/src/lib.rs:130 | a digit string without a leading zero is the canonical spelling of its own value |
| HeadrParse.AcceptsEverySpelling | headr/src/lib.rs:129-134 | every spelling of a positive in-range n (optional `+`, any number of leading zeros, the digits) is accepted with value n |
| HeadrParse.AcceptedIsSpelling | headr/src/lib.rs:129-134 | conversely, every accepted text is such a spelling of the value returned |
| HeadrParse.UnitTestCases | headr/src/lib.rs:144-156 | `"3"` gives Ok(3); `"foo"` and `"0"` are rejected, each with itself as the message |
| HeadrIo.Open | headr/src/lib.rs:136-141 | `-` opens standard input; any other name opens the file of that name or fails with the OS error for it (not found when there is no such file) |
| HeadrIo.ReadAt | headr/src/lib.rs:108-110 | one `read` through `take(n)`: fails only when no data is left and the stream ends in an error; otherwise returns the next bytes, at most n of them, and at least one when data remains |
| HeadrIo.NextLine | headr/src/lib.rs:115 | one `read_line`: the bytes through the next newline (or to the end of the data), which is the first line of the rest; empty exactly at end of input; it fails with the stream's error exactly when that error is reached before a newline, and otherwise with InvalidData exactly when the line is not UTF-8 |
| HeadrIo.NextLineOnLines | headr/src/lib.rs:115 | `read_line` at any offset gives what the lines from that offset dictate: the first of them, end of input when none is left, the stream's error when it comes before the line's newline, InvalidData when the line is not UTF-8 |
| HeadrIo.LinesAtNext | headr/src/lib.rs:115 | past the first line from an offset lie exactly the remaining lines, so consecutive `read_line` calls walk the lines in order |
| HeadrIo.Reader.ReadLine | headr/src/lib.rs:115 | the call's outcome is the first unread line's, and the reader always moves past that line, leaving the other lines unread. On success the line is appended to the buffer and its length returned. When the line is not UTF-8, the buffer is left as it was. When the stream's error cuts the line short, the partial line stays in the buffer if it is UTF-8 |
| HeadrIo.Reader.Read | headr/src/lib.rs:110 | fills a prefix of the buffer in place with the bytes `ReadAt` returns and advances past them |
| HeadrIo.Console.Print | headr/src/lib.rs:101-105 | appends to standard output and leaves standard error alone |
| HeadrIo.Console.EPrint | headr/src/lib.rs:98 | appends to standard error and leaves standard output alone |
| Utf8.LossyOfValid | headr/src/lib.rs:111 | permissive decoding leaves well-formed UTF-8 unchanged |
| Utf8.LossyIsValid | headr/src/lib.rs:111 | permissive decoding always yields well-formed UTF-8 |
| Lines.LineLengthIsLine | headr/src/lib.rs:115 | the first line of non-empty data has no newline before its last byte |
| Lines.SplitLinesConcat | headr/src/lib.rs:114-121 | the lines `read_line` returns, concatenated, are the whole input |
| Lines.SplitLinesWellFormed | headr/src/lib.rs:114-121 | every line ends in a newline except possibly the last, and none is empty |
| Lines.ConcatSplitLines | headr/src/lib.rs:114-121 | conversely, well-formed lines concatenated and split again give back the same lines |
| HeadrSpec.HeaderRule | headr/src/lib.rs:100-106 | no header when the list has one name; `==> name <==` and a newline for the first of several; the same preceded by a blank line for any later one |
| HeadrSpec.LinesAdvance | headr/src/lib.rs:115-120 | one iteration that reads a line: printing it and then running the remaining iterations on the remaining lines prints what the whole loop prints, and fails the same way |
| HeadrSpec.LinesStop | headr/src/lib.rs:115-118 | a `read_line` that fails or returns 0 ends line mode with nothing more printed, failing with that error or not at all |
| HeadrSpec.LinesNone | headr/src/lib.rs:114 | with no iterations left nothing more is printed and nothing fails |
| HeadrSpec.LinesFromAreFirstLines | headr/src/lib.rs:113-121 | line mode prints the first k lines of the input in order, k at most N; when no read fails, k = min(N, number of lines) |
| HeadrSpec.LinesFromFailure | headr/src/lib.rs:113-121 | line mode stops at the first line `read_line` rejects: every line printed is UTF-8 and, on a stream that ends in an error, ends in a newline; the failure is the stream's error when it is reached before a newline (after the last line, or inside an unterminated last line), and otherwise InvalidData for a non-UTF-8 line; a stream of UTF-8 lines that ends cleanly never fails; without a failure on a stream that ends in an error, all N calls were made |
| HeadrSpec.HeadLinesAreFirstLines | headr/src/lib.rs:113-121 | `-n N` prints a prefix of the source made of whole lines, and exactly the first min(N, line count) lines when no read fails |
| HeadrSpec.HeadLinesFailure | headr/src/lib.rs:113-121 | the same for `-n N` on a whole source, stated on its own lines: it stops at the first line `read_line` rejects, with the error that line draws |
| HeadrSpec.HeadBytesIsPrefix | headr/src/lib.rs:107-111 | `-c N` fails only on an empty source that ends in an error; otherwise it prints the decoding of a prefix of the source of at most N bytes (never padded, non-empty when the source is), and that decoding is well-formed and equals the prefix when the prefix is well-formed |
| HeadrSpec.FoldAbortIsFinal | headr/src/lib.rs:107-126 | once a name's outcome has failed, the outcomes of all later names are kept out of the result, so nothing more is written |
| HeadrSpec.FoldGrows | headr/src/lib.rs:96-125 | what earlier names wrote stays ahead of what later names write, on both streams |
| HeadrSpec.OpenFailureIsolated | headr/src/lib.rs:97-98 | a name that cannot be opened adds exactly `name: cause\n` to standard error, nothing to standard output, and the loop continues |
| HeadrSpec.OpenedStep | headr/src/lib.rs:99-122 | handling a name that opens appends its header and its content to standard output, nothing to standard error, and takes its content's status |
| HeadrSpec.OpenedFilePrinted | headr/src/lib.rs:99-122 | a name that opens writes its header only when the list has more than one name (failed names included), preceded by a newline exactly when it is not the first name, and then its content; its status is its content's |
| HeadrSpec.FailedFirstStillSeparated | headr/src/lib.rs:96-105 | with two names of which the first fails to open, the second's header still starts with a blank line |
| HeadrSpec.SingleFileNoHeader | headr/src/lib.rs:100-121 | a single name in line mode prints no header, just the first min(N, line count) lines |
| HeadrSpec.FoldThenRest | headr/src/lib.rs:96-126 | the loop's state after k names, followed by the rest of the list, is the whole run |
| HeadrSpec.RunInListOrder | headr/src/lib.rs:96-126 | the run is each name's contribution in list order, up to and including the first name whose read fails |
| HeadrSpec.BytesOverrideLines | headr/src/lib.rs:107-112 | with a byte count given, the line count has no effect on the run |
| Headr.EmitBytes | headr/src/lib.rs:107-111 | a zeroed buffer of N bytes, one read into it, and the bytes read printed after permissive decoding: exactly what `HeadBytes` specifies |
| Headr.EmitLines | headr/src/lib.rs:113-121 | the bounded `read_line` loop with a reused, cleared buffer and a `break` at end of input prints exactly what `LinesFrom` specifies for the reader's unread lines and returns its error |
| Headr.Run | headr/src/lib.rs:94-127 | the loop over the names writes to standard output and standard error exactly what `RunSpec` specifies and returns its status; it returns as soon as a read fails, so no later name is opened |
| Echor.Echo | 02-echor/src/main.rs:22-25 | without `-n` the output ends in a newline; it is as long as the words together, plus one separator per pair, plus one for the newline when `-n` is absent; every word, spaces inside it or not, stands at its offset (the earlier words' lengths plus one per earlier word) followed by a single space unless it is the last; when no word holds a space, splitting what precedes the newline at spaces gives back the words; no words give just the ending |
| Echor.SplitJoin | 02-echor/src/main.rs:25 | for words that contain no space, splitting the joined text at spaces gives back the words |
| Echor.JoinAt | 02-echor/src/main.rs:25 | for any words, the i-th word occupies the joined text from its offset on, and a single space follows it unless it is the last |
| Echor.JoinPositions | 02-echor/src/main.rs:25 | the same placement of every word holds in any text that begins with the join, such as the join followed by the newline |
| Echor.JoinLength | 02-echor/src/main.rs:25 | the joined text is as long as the words together plus one separator per pair |
| Echor.JoinNoOuterSpace | 02-echor/src/main.rs:25 | no space is added before the first word or after the last |
| Echor.EndsWithNewline | 02-echor/src/main.rs:23-25 | the output ends in a newline exactly when `-n` is absent |
| Echor.JoinLastEmpty | 02-echor/src/main.rs:25 | an empty last word after other words leaves the joined text ending in the separator space |
| Echor.SingleWord | 02-echor/src/main.rs:25 | a single word is printed as it is, followed by the ending, with no separator |

## Left out

- Argument parsing (`get_args` in headr, the clap setup of echor): it lives in a library outside this model. `Config` is taken as given. The model does not need headr's `lines > 0`, `bytes > 0` or its non-empty file list, so it holds for any configuration.
- catr: its `run` only dumps its configuration, so there is nothing to model.
- The commented-out earlier `run` in headr/src/lib.rs: it is dead code.
- Real files and standard input: every source is a fixed byte sequence with a fixed ending. The OS error text is an opaque byte string. A directory or unreadable file that opens but fails on reading is a source whose ending is an error.
- `BufReader` buffering of standard input: every `-` in the list is modelled as reading the standard-input source from its start. In the real program each `-` wraps a new `BufReader` around the same standard input. A second `-` therefore continues from wherever the first reader left the stream. Everything the first reader pulled in is gone, whether printed or only held in its 8 KiB buffer. With `-c N` and N of at least 8 KiB, `read` bypasses that buffer, so the first reader takes only what its one `read` returned.
- Write failures on standard output or standard error (where `print!` panics), and allocation failure for a huge `-c` buffer: not modelled.
- `usize` is taken to be 64 bits wide.
- `read` through `take(n)` returns some non-empty prefix of what is asked for, bounded by the source's `chunk`. Interrupted reads and retries are not modelled.
- Utf8.Lossy: the decoder replaces each maximal ill-formed subpart with U+FFFD, as Rust's `from_utf8_lossy` does. Only its two properties (identity on valid input, valid output) are proved, not its exact agreement with the standard library.
- Echor.EndsWithNewline: stated only when the last word does not itself end in a newline, because then a `-n` output ends in one too.
- Echor.JoinNoOuterSpace: stated only when the first and last words are non-empty and do not start or end with a space themselves, since the join adds nothing at the ends but an empty or space-edged word shows through.
- Echor: the words come from `values_of_lossy`, so they are already Unicode text. Invalid UTF-8 in the arguments is not modelled.

=== FILE: echor.dfy ===
/**
 * echor's output: the words of the command line joined by single spaces,
 * followed by a newline unless `-n` was given.  Split is the inverse of the
 * join for words without spaces, which pins down "exactly one space between
 * consecutive words, none at either end".
 */
module Echor {
  const SPACE: char := ' '
  const NEWLINE: char := '\n'

  /** `text.join(" ")`: the words in order with one space between consecutive words. */
  function Join(words: seq<string>): (s: string)
    ensures words != [] ==> words[0] <= s
  {
    if words == [] then ""
    else if |words| == 1 then words[0]
    else words[0] + [SPACE] + Join(words[1..])
  }

  /**
   * The text echor prints for `text` and the `-n` flag: without `-n` it ends
   * in a newline; its length is the words' plus one separator per pair (plus
   * the newline); each word stands at its offset, followed by a space unless
   * it is the last; and for words without spaces, cut at its spaces, what
   * precedes the newline gives back the words.
   */
  function Echo(text: seq<string>, omitNewline: bool): (out: string)
    ensures !omitNewline ==> |out| > 0 && out[|out| - 1] == NEWLINE
    ensures text == [] ==> out == (if omitNewline then "" else [NEWLINE])
    ensures text != [] ==> |out| == TotalLength(text) + |text| - 1 + (if omitNewline then 0 else 1)
    ensures forall i :: 0 <= i < |text| ==>
              var at := Offset(text, i);
              at + |text[i]| <= |out| && out[at..at + |text[i]|] == text[i] &&
              (i + 1 < |text| ==> at + |text[i]| < |out| && out[at + |text[i]|] == SPACE)
    ensures text != [] && (forall i :: 0 <= i < |text| ==> NoSpace(text[i])) ==>
              Split(if omitNewline then out else out[..|out| - 1]) == text
  {
    var ending := if omitNewline then "" else [NEWLINE];
    var out := Join(text) + ending;
    if text == [] then out
    else
      JoinPositions(text, out);
      JoinLength(text);
      assert (if omitNewline then out else out[..|out| - 1]) == Join(text);
      assert (forall i | 0 <= i < |text| :: NoSpace(text[i])) ==> Split(Join(text)) == text by {
        if forall i | 0 <= i < |text| :: NoSpace(text[i]) {
          SplitJoin(text);
        }
      }
      out
  }

  /** Splitting at every space; always at least one piece. */
  function Split(s: string): (pieces: seq<string>)
    ensures |pieces| >= 1
  {
    if s == [] then [""]
    else if s[0] == SPACE then [""] + Split(s[1..])
    else
      var rest := Split(s[1..]);
      [[s[0]] + rest[0]] + rest[1..]
  }

  predicate NoSpace(w: string) {
    forall i :: 0 <= i < |w| ==> w[i] != SPACE
  }

  function TotalLength(words: seq<string>): nat {
    if words == [] then 0 else |words[0]| + TotalLength(words[1..])
  }

  /** A word without spaces, followed by a space and more text, splits into that word and the pieces of the rest. */
  lemma {:induction false} SplitWordThen(w: string, t: string)
    requires NoSpace(w)
    ensures Split(w + [SPACE] + t) == [w] + Split(t)
    decreases |w|
  {
    if w == [] {
      assert w + [SPACE] + t == [SPACE] + t;
      assert ([SPACE] + t)[1..] == t;
    } else {
      var s := w + [SPACE] + t;
      assert s[0] == w[0] && s[1..] == w[1..] + [SPACE] + t;
      SplitWordThen(w[1..], t);
      assert [w[0]] + w[1..] == w;
    }
  }

  /** A word without spaces is one piece. */
  lemma {:induction false} SplitWord(w: string)
    requires NoSpace(w)
    ensures Split(w) == [w]
    decreases |w|
  {
    if w != [] {
      SplitWord(w[1..]);
      assert [w[0]] + w[1..] == w;
    }
  }

  /** Joining then splitting gives back the words: exactly one space separates consecutive words. */
  lemma {:induction false} SplitJoin(words: seq<string>)
    requires words != []
    requires forall i :: 0 <= i < |words| ==> NoSpace(words[i])
    ensures Split(Join(words)) == words
    decreases |words|
  {
    if |words| == 1 {
      SplitWord(words[0]);
    } else {
      SplitWordThen(words[0], Join(words[1..]));
      SplitJoin(words[1..]);
      assert [words[0]] + words[1..] == words;
    }
  }

  /** Where the `i`-th word starts in the joined text: after the earlier words and one separator each. */
  function Offset(words: seq<string>, i: nat): nat
    requires i <= |words|
  {
    TotalLength(words[..i]) + i
  }

  /** Every word stands at its offset in the joined text, followed by a space unless it is the last. */
  lemma {:induction false} JoinAt(words: seq<string>, i: nat)
    requires i < |words|
    ensures var s := Join(words);
            var at := Offset(words, i);
            at + |words[i]| <= |s| && s[at..at + |words[i]|] == words[i] &&
            (i + 1 < |words| ==> at + |words[i]| < |s| && s[at + |words[i]|] == SPACE)
    decreases i
  {
    var s := Join(words);
    if i == 0 {
      assert words[..0] == [];
      if |words| > 1 {
        assert s == words[0] + [SPACE] + Join(words[1..]);
      }
    } else {
      var rest := words[1..];
      JoinAt(rest, i - 1);
      assert words[..i][1..] == rest[..i - 1];
      assert Offset(words, i) == |words[0]| + 1 + Offset(rest, i - 1);
      assert s == words[0] + [SPACE] + Join(rest);
      var at := Offset(rest, i - 1);
      assert s[|words[0]| + 1..] == Join(rest);
      assert words[i] == rest[i - 1];
    }
  }

  /** Every word at its offset, in any text that starts with the join. */
  lemma JoinPositions(words: seq<string>, s: string)
    requires Join(words) <= s
    ensures forall i :: 0 <= i < |words| ==>
              var at := Offset(words, i);
              at + |words[i]| <= |s| && s[at..at + |words[i]|] == words[i] &&
              (i + 1 < |words| ==> at + |words[i]| < |s| && s[at + |words[i]|] == SPACE)
  {
    forall i | 0 <= i < |words|
      ensures var at := Offset(words, i);
              at + |words[i]| <= |s| && s[at..at + |words[i]|] == words[i] &&
              (i + 1 < |words| ==> at + |words[i]| < |s| && s[at + |words[i]|] == SPACE)
    {
      JoinAt(words, i);
      var j := Join(words);
      var at := Offset(words, i);
      assert s[at..at + |words[i]|] == j[at..at + |words[i]|];
    }
  }

  /** The joined text is the words' lengths plus one separator between each pair. */
  lemma {:induction false} JoinLength(words: seq<string>)
    requires words != []
    ensures |Join(words)| == TotalLength(words) + |words| - 1
    decreases |words|
  {
    if |words| > 1 {
      JoinLength(words[1..]);
    } else {
      assert words[1..] == [];
    }
  }

  /** No separator at either end, when the first word does not start and the last word does not end with a space. */
  lemma JoinNoOuterSpace(words: seq<string>)
    requires words != [] && words[0] != [] && words[|words| - 1] != []
    requires words[0][0] != SPACE && words[|words| - 1][|words[|words| - 1]| - 1] != SPACE
    ensures var s := Join(words);
            s != [] && s[0] != SPACE && s[|s| - 1] != SPACE
  {
    JoinLast(words);
  }

  /**
   * The output ends in a newline exactly when `-n` is absent, provided the
   * last word does not itself end in one.
   */
  lemma EndsWithNewline(text: seq<string>, omitNewline: bool)
    requires text == [] || text[|text| - 1] == [] || text[|text| - 1][|text[|text| - 1]| - 1] != NEWLINE
    ensures var out := Echo(text, omitNewline);
            (out != [] && out[|out| - 1] == NEWLINE) <==> !omitNewline
  {
    if text != [] && text[|text| - 1] != [] {
      JoinLast(text);
    } else if |text| > 1 {
      JoinLastEmpty(text);
    }
  }

  /** An empty last word after others leaves the joined text ending in the separator. */
  lemma {:induction false} JoinLastEmpty(words: seq<string>)
    requires |words| > 1 && words[|words| - 1] == []
    ensures var s := Join(words);
            s != [] && s[|s| - 1] == SPACE
    decreases |words|
  {
    if |words| > 2 {
      JoinLastEmpty(words[1..]);
    }
  }

  /** The joined text ends with the last word's last character when that word is not empty. */
  lemma {:induction false} JoinLast(words: seq<string>)
    requires words != [] && words[|words| - 1] != []
    ensures var s := Join(words);
            s != [] && s[|s| - 1] == words[|words| - 1][|words[|words| - 1]| - 1]
    decreases |words|
  {
    if |words| > 1 {
      JoinLast(words[1..]);
    }
  }

  /** A single word is printed as it is, followed by the ending, with no separator. */
  lemma SingleWord(w: string, omitNewline: bool)
    ensures Echo([w], omitNewline) == w + (if omitNewline then "" else "\n")
  {
  }
}

=== FILE: headr_io.dfy ===
/**
 * What headr reads from and writes to.  A source is the byte stream behind a
 * `BufRead`: its bytes, then either end of input or an I/O error, and the
 * largest number of bytes one `read` call hands back.  `open` resolves a
 * name to a source; Reader is an opened source being consumed; Console is
 * the process's standard output and standard error as accumulated bytes.
 */
module HeadrIo {
  import opened Wrappers
  import opened Utf8
  import opened Lines
  import opened Seqs

  /** The text an OS error displays as; kept opaque. */
  type Cause = Bytes

  /** What follows the last byte of a stream. */
  datatype Ending = Eof | Fail(cause: Cause)

  type Positive = n: nat | n > 0 witness 1

  /** A readable stream; `chunk` bounds what a single `read` call returns (short reads). */
  datatype Source = Source(data: Bytes, ending: Ending, chunk: Positive)

  /** Errors a read can report: an OS error, or a line that is not UTF-8 (`read_line`'s InvalidData). */
  datatype IoError = Os(cause: Cause) | InvalidUtf8

  /** What opening a path finds. */
  datatype Entry = Readable(source: Source) | Unopenable(cause: Cause)

  /** Standard input, the file system, and the error a path that does not exist gets. */
  datatype Env = Env(stdin: Source, files: map<Bytes, Entry>, notFound: Cause)

  /** The name `-`, meaning standard input. */
  const DASH: Bytes := [0x2D]

  /** `open`: `-` is standard input, any other name is a file path opened for reading. */
  function Open(name: Bytes, env: Env): (r: Result<Source, Cause>)
    ensures name == DASH ==> r == Ok(env.stdin)
    ensures name != DASH && name in env.files ==>
              (r.Ok? <==> env.files[name].Readable?) &&
              (r.Ok? ==> r.value == env.files[name].source) &&
              (r.Err? ==> r.error == env.files[name].cause)
    ensures name != DASH && name !in env.files ==> r == Err(env.notFound)
  {
    if name == DASH then Ok(env.stdin)
    else if name in env.files then
      match env.files[name]
      case Readable(src) => Ok(src)
      case Unopenable(cause) => Err(cause)
    else Err(env.notFound)
  }

  function Min(a: nat, b: nat): nat {
    if a < b then a else b
  }

  /**
   * One `read` call of at most `n` bytes at offset `pos`: a request for nothing
   * returns nothing; at the end of the data it reports end of input or the
   * stream's error; otherwise it returns at least one and at most `n` of the
   * next bytes.
   */
  function ReadAt(src: Source, pos: nat, n: nat): (r: Result<Bytes, IoError>)
    requires pos <= |src.data|
    ensures r.Err? <==> n > 0 && pos == |src.data| && src.ending.Fail?
    ensures r.Err? ==> r.error == Os(src.ending.cause)
    ensures r.Ok? ==> |r.value| <= n && pos + |r.value| <= |src.data| &&
                      r.value == src.data[pos..pos + |r.value|]
    ensures r.Ok? && n > 0 && pos < |src.data| ==> |r.value| > 0
    ensures r.Ok? && n <= src.chunk && pos + n <= |src.data| ==> |r.value| == n
  {
    if n == 0 then Ok([])
    else if pos == |src.data| then
      match src.ending
      case Eof => Ok([])
      case Fail(cause) => Err(Os(cause))
    else Ok(src.data[pos..pos + Min(Min(n, src.chunk), |src.data| - pos)])
  }

  /**
   * One `read_line` call on the unread bytes `rest`: the bytes through the
   * next newline, or to the end of the data.  Running into the stream's error
   * before a newline fails with that error; a line that is not well-formed
   * UTF-8 fails with InvalidUtf8.  An empty line means end of input.
   */
  function NextLine(rest: Bytes, ending: Ending): (r: Result<Bytes, IoError>)
    ensures r.Ok? ==> r.value <= rest && ValidUtf8(r.value)
    ensures r.Ok? ==> (r.value == [] <==> rest == [])
    ensures r.Ok? && r.value != [] ==> r.value == SplitLines(rest)[0]
    ensures r.Err? && r.error.Os? ==> ending == Fail(r.error.cause) && !Terminated(rest[..LineLength(rest)])
    ensures r == Err(InvalidUtf8) ==> !ValidUtf8(rest[..LineLength(rest)])
    ensures ending.Fail? && !Terminated(rest[..LineLength(rest)]) ==> r == Err(Os(ending.cause))
    ensures (ending.Eof? || Terminated(rest[..LineLength(rest)])) && !ValidUtf8(rest[..LineLength(rest)]) ==>
              r == Err(InvalidUtf8)
  {
    var line := rest[..LineLength(rest)];
    if !Terminated(line) && ending.Fail? then Err(Os(ending.cause))
    else if !ValidUtf8(line) then Err(InvalidUtf8)
    else Ok(line)
  }

  /**
   * What `read_line` gives when `ls` are the lines still to be read: the first
   * of them, unless the stream's error comes before its newline or it is not
   * UTF-8; with no line left, end of input or the stream's error.
   */
  function FirstLine(ls: seq<Bytes>, ending: Ending): (r: Result<Bytes, IoError>)
    ensures r.Ok? && r.value != [] ==> ls != [] && r.value == ls[0]
  {
    if ls == [] then
      if ending.Fail? then Err(Os(ending.cause)) else Ok([])
    else if !Terminated(ls[0]) && ending.Fail? then Err(Os(ending.cause))
    else if !ValidUtf8(ls[0]) then Err(InvalidUtf8)
    else Ok(ls[0])
  }

  /** The first of `ls`, or nothing when there is none. */
  function FirstOrEmpty(ls: seq<Bytes>): Bytes {
    if ls == [] then [] else ls[0]
  }

  /** The lines of `data` from offset `pos` on. */
  ghost function LinesAt(data: Bytes, pos: nat): seq<Bytes>
    requires pos <= |data|
  {
    SplitLines(data[pos..])
  }

  /**
   * Reading the bytes is reading the lines: `read_line` at offset `pos` gives
   * what FirstLine gives on the lines from `pos` on.
   */
  lemma NextLineOnLines(data: Bytes, pos: nat, ending: Ending)
    requires pos <= |data|
    ensures NextLine(data[pos..], ending) == FirstLine(LinesAt(data, pos), ending)
    ensures var rest := data[pos..];
            var ls := LinesAt(data, pos);
            (ls == [] <==> rest == []) && (ls != [] ==> ls[0] == rest[..LineLength(rest)])
  {
    var rest := data[pos..];
    if rest == [] {
      assert rest[..LineLength(rest)] == [];
    }
  }

  /** Past the first line from `pos` lie the remaining lines. */
  lemma LinesAtNext(data: Bytes, pos: nat)
    requires pos <= |data| && LinesAt(data, pos) != []
    ensures var l := LinesAt(data, pos)[0];
            pos + |l| <= |data| && LinesAt(data, pos + |l|) == LinesAt(data, pos)[1..]
  {
    var rest := data[pos..];
    SplitLinesTail(rest);
    DropDrop(data, pos, |SplitLines(rest)[0]|);
  }

  /** An opened source and how far it has been read. */
  class Reader {
    const src: Source
    var pos: nat

    ghost predicate Valid()
      reads this
    {
      pos <= |src.data|
    }

    constructor (src: Source)
      ensures Valid() && this.src == src && pos == 0
    {
      this.src := src;
      pos := 0;
    }

    /**
     * `read_line`: consumes the next line (through its newline, or to the end
     * of the data) and appends it to `line`, returning its length.  When the
     * line is not UTF-8 it is still consumed but the buffer is left as it
     * was; when the stream's error cuts the line short, the bytes before the
     * error are consumed and stay in the buffer if they are UTF-8.
     */
    method ReadLine(line: Bytes) returns (r: Result<nat, IoError>, line': Bytes)
      requires Valid()
      modifies this
      ensures Valid()
      ensures r.Ok? <==> FirstLine(LinesAt(src.data, old(pos)), src.ending).Ok?
      ensures r.Ok? ==>
                var got := FirstLine(LinesAt(src.data, old(pos)), src.ending).value;
                r.value == |got| && line' == line + got && pos == old(pos) + |got| &&
                (got != [] ==> LinesAt(src.data, pos) == LinesAt(src.data, old(pos))[1..])
      ensures r.Err? ==> r.error == FirstLine(LinesAt(src.data, old(pos)), src.ending).error
      ensures r.Err? ==>
                var taken := FirstOrEmpty(LinesAt(src.data, old(pos)));
                pos == old(pos) + |taken| &&
                (taken != [] ==> LinesAt(src.data, pos) == LinesAt(src.data, old(pos))[1..]) &&
                line' == line + (if r.error.Os? && ValidUtf8(taken) then taken else [])
    {
      NextLineOnLines(src.data, pos, src.ending);
      ghost var ls := LinesAt(src.data, pos);
      var rest := src.data[pos..];
      var taken := rest[..LineLength(rest)];
      var res := NextLine(rest, src.ending);
      assert res == FirstLine(ls, src.ending);
      if ls != [] {
        LinesAtNext(src.data, pos);
      }
      match res {
        case Ok(got) =>
          r, line' := Ok(|got|), line + got;
        case Err(e) =>
          r := Err(e);
          line' := line + (if e.Os? && ValidUtf8(taken) then taken else []);
      }
      pos := pos + |taken|;
    }

    /** `read` into `buf`: fills a prefix of `buf` in place and returns how many bytes it filled. */
    method Read(buf: array<byte>) returns (r: Result<nat, IoError>)
      requires Valid()
      modifies this, buf
      ensures Valid()
      ensures ReadAt(src, old(pos), buf.Length).Err? ==>
                r == Err(ReadAt(src, old(pos), buf.Length).error) && pos == old(pos)
      ensures ReadAt(src, old(pos), buf.Length).Ok? ==>
                var got := ReadAt(src, old(pos), buf.Length).value;
                r == Ok(|got|) && buf[..|got|] == got && pos == old(pos) + |got|
    {
      var res := ReadAt(src, pos, buf.Length);
      match res
      case Err(e) =>
        r := Err(e);
      case Ok(got) =>
        forall i | 0 <= i < |got| {
          buf[i] := got[i];
        }
        r := Ok(|got|);
        pos := pos + |got|;
    }
  }

  /** Standard output and standard error, as everything written to them so far. */
  class Console {
    var out: Bytes
    var err: Bytes

    constructor ()
      ensures out == [] && err == []
    {
      out, err := [], [];
    }

    /** `print!` */
    method Print(b: Bytes)
      modifies this
      ensures out == old(out) + b && err == old(err)
    {
      out := out + b;
    }

    /** `eprint!` (and `eprintln!` with the newline included in `b`) */
    method EPrint(b: Bytes)
      modifies this
      ensures err == old(err) + b && out == old(out)
    {
      err := err + b;
    }
  }
}

=== FILE: headr_parse.dfy ===
/**
 * headr's numeric option validator: `parse_positive_int` accepts exactly the
 * strings Rust's `usize` parser accepts whose value is greater than zero, and
 * otherwise fails with the input text itself as the error message.
 */
module HeadrParse {
  import opened Wrappers
  import opened Seqs

  /** `usize::MAX` on a 64-bit target. */
  const USIZE_MAX: nat := 0xFFFF_FFFF_FFFF_FFFF

  predicate IsDigit(c: char) {
    '0' <= c <= '9'
  }

  predicate AllDigits(s: string) {
    forall i :: 0 <= i < |s| ==> IsDigit(s[i])
  }

  function DigitValue(c: char): (v: nat)
    requires IsDigit(c)
    ensures v < 10
  {
    c as int - '0' as int
  }

  function Digit(v: nat): (c: char)
    requires v < 10
    ensures IsDigit(c) && DigitValue(c) == v
  {
    ('0' as int + v) as char
  }

  /** The value of a string of decimal digits, read most significant first. */
  function DigitsValue(s: string): nat
    requires AllDigits(s)
    decreases |s|
  {
    if s == [] then 0 else 10 * DigitsValue(s[..|s| - 1]) + DigitValue(s[|s| - 1])
  }

  /** `s` without the one leading `+` Rust's unsigned parser allows. */
  function Unsigned(s: string): (u: string)
    ensures u == s || (s != [] && s[0] == '+' && u == s[1..])
  {
    if |s| > 0 && s[0] == '+' then s[1..] else s
  }

  /**
   * `usize::from_str`: an optional `+`, then one or more decimal digits whose
   * value fits in a `usize`; anything else (empty, a sign alone, `-`, spaces,
   * other characters, overflow) is rejected.
   */
  function ParseUsize(s: string): (r: Option<nat>)
    ensures r.Some? ==> r.value <= USIZE_MAX && exists plus: bool, zeros: nat :: s == Spelling(plus, zeros, r.value)
    ensures r.None? ==> forall plus: bool, zeros: nat, n: nat | n <= USIZE_MAX :: s != Spelling(plus, zeros, n)
  {
    var digits := Unsigned(s);
    if digits == [] || !AllDigits(digits) then
      NoSpelling(s);
      None
    else if DigitsValue(digits) > USIZE_MAX then
      NoSpelling(s);
      None
    else
      DigitsAreSpelling(s);
      Some(DigitsValue(digits))
  }

  /** `parse_positive_int`: a positive `usize`, or the input text as the error. */
  function ParsePositiveInt(val: string): (r: Result<nat, string>)
    ensures r.Ok? ==> 0 < r.value <= USIZE_MAX && exists plus: bool, zeros: nat :: val == Spelling(plus, zeros, r.value)
    ensures r.Err? ==> r.error == val && forall plus: bool, zeros: nat, n: nat | 0 < n <= USIZE_MAX :: val != Spelling(plus, zeros, n)
  {
    match ParseUsize(val)
    case Some(n) =>
      if n > 0 then Ok(n)
      else
        assert forall plus: bool, zeros: nat, m: nat | 0 < m <= USIZE_MAX :: val != Spelling(plus, zeros, m) by {
          forall plus: bool, zeros: nat, m: nat | 0 < m <= USIZE_MAX
            ensures val != Spelling(plus, zeros, m)
          {
            SpellingDigits(plus, zeros, m);
          }
        }
        Err(val)
    case None => Err(val)
  }

  /** The canonical decimal spelling of `n`: no sign, no leading zero. */
  function Decimal(n: nat): (s: string)
    decreases n
  {
    if n < 10 then [Digit(n)] else Decimal(n / 10) + [Digit(n % 10)]
  }

  function Zeros(k: nat): (s: string)
    ensures |s| == k && AllDigits(s)
    ensures forall i :: 0 <= i < k ==> s[i] == '0'
  {
    if k == 0 then [] else Zeros(k - 1) + ['0']
  }

  /** Number of leading `'0'` characters of `s`. */
  function LeadingZeros(s: string): (k: nat)
    ensures k <= |s|
    ensures s[..k] == Zeros(k)
    ensures k < |s| ==> s[k] != '0'
  {
    if s == [] || s[0] != '0' then 0
    else
      var k := 1 + LeadingZeros(s[1..]);
      assert s[..k] == ['0'] + s[1..][..k - 1];
      k
  }

  /**
   * A spelling of `n` that `usize::from_str` accepts: an optional `+`, any
   * number of leading zeros, then the canonical digits.
   */
  function Spelling(plus: bool, zeros: nat, n: nat): string {
    (if plus then "+" else "") + Zeros(zeros) + Decimal(n)
  }

  /** Past the sign, a spelling is a non-empty digit string with value `n`. */
  lemma SpellingDigits(plus: bool, zeros: nat, n: nat)
    ensures var u := Unsigned(Spelling(plus, zeros, n));
            u == Zeros(zeros) + Decimal(n) && u != [] && AllDigits(u) && DigitsValue(u) == n
  {
    var d := Zeros(zeros) + Decimal(n);
    DecimalReadsBack(n);
    ZerosIgnored(zeros, Decimal(n));
    UnsignedOfSpelling(plus, d);
    Regroup(if plus then "+" else "", Zeros(zeros), Decimal(n));
  }

  /** A string whose unsigned part is not an in-range digit string spells no in-range value. */
  lemma NoSpelling(s: string)
    requires !(Unsigned(s) != [] && AllDigits(Unsigned(s)) && DigitsValue(Unsigned(s)) <= USIZE_MAX)
    ensures forall plus: bool, zeros: nat, n: nat | n <= USIZE_MAX :: s != Spelling(plus, zeros, n)
  {
    forall plus: bool, zeros: nat, n: nat | n <= USIZE_MAX
      ensures s != Spelling(plus, zeros, n)
    {
      SpellingDigits(plus, zeros, n);
    }
  }

  /** The sign put back in front of the unsigned part gives the string. */
  lemma SignSplit(s: string)
    ensures s == (if |s| > 0 && s[0] == '+' then "+" else "") + Unsigned(s)
  {
    if |s| > 0 && s[0] == '+' {
      assert s == [s[0]] + s[1..];
    } else {
      assert "" + s == s;
    }
  }

  /** A non-empty digit string is some zeros followed by the canonical digits of its value. */
  lemma ZerosThenDecimal(u: string) returns (zeros: nat)
    requires u != [] && AllDigits(u)
    ensures u == Zeros(zeros) + Decimal(DigitsValue(u))
  {
    var k := LeadingZeros(u);
    zeros := if k == |u| then k - 1 else k;
    var rest := u[zeros..];
    assert u == Zeros(zeros) + rest by {
      assert u[..zeros] == Zeros(k)[..zeros];
    }
    ZerosIgnored(zeros, rest);
    if k == |u| {
      assert rest == "0";
      assert Decimal(0) == "0";
    } else {
      CanonicalSpelling(rest);
    }
  }

  /** Conversely, a non-empty digit string after the optional sign is a spelling of its value. */
  lemma DigitsAreSpelling(s: string)
    requires Unsigned(s) != [] && AllDigits(Unsigned(s))
    ensures exists plus: bool, zeros: nat :: s == Spelling(plus, zeros, DigitsValue(Unsigned(s)))
  {
    var u := Unsigned(s);
    var plus := |s| > 0 && s[0] == '+';
    var zeros := ZerosThenDecimal(u);
    SignSplit(s);
    Regroup(if plus then "+" else "", Zeros(zeros), Decimal(DigitsValue(u)));
    assert s == Spelling(plus, zeros, DigitsValue(u));
  }

  /** Decimal spells `n` with digits only, without a leading zero, and reads back as `n`. */
  lemma {:induction false} DecimalReadsBack(n: nat)
    ensures Decimal(n) != [] && AllDigits(Decimal(n))
    ensures n > 0 ==> Decimal(n)[0] != '0'
    ensures DigitsValue(Decimal(n)) == n
    decreases n
  {
    var d := Decimal(n);
    if n >= 10 {
      DecimalReadsBack(n / 10);
      assert d[..|d| - 1] == Decimal(n / 10);
    }
  }

  /** Leading zeros do not change a digit string's value. */
  lemma {:induction false} ZerosIgnored(k: nat, d: string)
    requires AllDigits(d)
    ensures AllDigits(Zeros(k) + d)
    ensures DigitsValue(Zeros(k) + d) == DigitsValue(d)
    decreases |d|, k
  {
    var s := Zeros(k) + d;
    if d == [] {
      assert s == Zeros(k);
      if k > 0 {
        assert s[..|s| - 1] == Zeros(k - 1) + [];
        ZerosIgnored(k - 1, []);
      }
    } else {
      var init := d[..|d| - 1];
      assert s[..|s| - 1] == Zeros(k) + init;
      ZerosIgnored(k, init);
      assert s[|s| - 1] == d[|d| - 1];
      assert DigitsValue(s) == 10 * DigitsValue(Zeros(k) + init) + DigitValue(d[|d| - 1]);
    }
  }

  /** A digit string with a non-zero lead has a positive value. */
  lemma {:induction false} NonZeroLeadPositive(d: string)
    requires d != [] && AllDigits(d) && d[0] != '0'
    ensures DigitsValue(d) > 0
    decreases |d|
  {
    if |d| > 1 {
      NonZeroLeadPositive(d[..|d| - 1]);
    }
  }

  /** Dividing by ten drops the last digit. */
  lemma DivMod10(q: nat, r: nat)
    requires r < 10
    ensures (10 * q + r) / 10 == q && (10 * q + r) % 10 == r
  {
  }

  /** A digit string with a non-zero lead is the canonical spelling of its value. */
  lemma {:induction false} CanonicalSpelling(d: string)
    requires d != [] && AllDigits(d) && d[0] != '0'
    ensures Decimal(DigitsValue(d)) == d
    decreases |d|
  {
    var v := DigitsValue(d);
    if |d| == 1 {
      assert Digit(DigitValue(d[0])) == d[0];
    } else {
      var p := d[..|d| - 1];
      var last := d[|d| - 1];
      CanonicalSpelling(p);
      NonZeroLeadPositive(p);
      DivMod10(DigitsValue(p), DigitValue(last));
      assert Decimal(v) == Decimal(DigitsValue(p)) + [Digit(DigitValue(last))];
      assert p + [last] == d;
    }
  }

  /** The optional sign comes off a string of digits and nothing else does. */
  lemma UnsignedOfSpelling(plus: bool, d: string)
    requires AllDigits(d)
    ensures Unsigned((if plus then "+" else "") + d) == d
  {
    var s := (if plus then "+" else "") + d;
    if plus {
      assert s[1..] == d;
    } else {
      assert s == d;
      assert d != [] ==> IsDigit(d[0]);
    }
  }

  /**
   * Every spelling of a positive in-range `n` is accepted with value `n`:
   * an optional `+`, any number of leading zeros, then the decimal digits.
   */
  lemma AcceptsEverySpelling(plus: bool, zeros: nat, n: nat)
    requires 0 < n <= USIZE_MAX
    ensures ParsePositiveInt(Spelling(plus, zeros, n)) == Ok(n)
  {
    SpellingDigits(plus, zeros, n);
  }

  /**
   * Conversely, an accepted string is exactly such a spelling: after the
   * optional `+` come only zeros and then the canonical digits of the value.
   */
  lemma AcceptedIsSpelling(s: string)
    requires ParsePositiveInt(s).Ok?
    ensures var u := Unsigned(s);
            u == Zeros(LeadingZeros(u)) + Decimal(ParsePositiveInt(s).value)
  {
    var u := Unsigned(s);
    var k := LeadingZeros(u);
    var rest := u[k..];
    assert u == Zeros(k) + rest;
    ZerosIgnored(k, rest);
    CanonicalSpelling(rest);
  }

  /** The cases checked by the source's own unit test. */
  lemma UnitTestCases()
    ensures ParsePositiveInt("3") == Ok(3)
    ensures ParsePositiveInt("foo") == Err("foo")
    ensures ParsePositiveInt("0") == Err("0")
  {
    assert DigitsValue("3") == 3 by { assert "3"[..0] == ""; }
    assert !AllDigits("foo") by { assert !IsDigit("foo"[0]); }
    assert DigitsValue("0") == 0 by { assert "0"[..0] == ""; }
  }
}

=== FILE: headr_run.dfy ===
/**
 * headr's `run`: the loop over the file names, written as the program writes
 * it, against a Console that stands for standard output and standard error.
 * Each method is proved to write exactly what HeadrSpec says.
 */
module Headr {
  import opened Wrappers
  import opened Utf8
  import opened Lines
  import opened HeadrIo
  import opened HeadrSpec
  import opened Seqs

  /** `-c`: one read of at most `n` bytes into a zeroed buffer, printed after permissive decoding. */
  method EmitBytes(file: Reader, n: nat, console: Console) returns (r: Result<(), IoError>)
    requires file.Valid() && file.pos == 0
    modifies file, console
    ensures console.out == old(console.out) + HeadBytes(file.src, n).Printed()
    ensures console.err == old(console.err)
    ensures r == StatusOf(HeadBytes(file.src, n))
  {
    var buffer := new byte[n](_ => 0);
    var bytesRead := file.Read(buffer);
    if bytesRead.Err? {
      return Err(bytesRead.error);
    }
    var got := buffer[..bytesRead.value];
    assert got == ReadAt(file.src, 0, n).value;
    assert Concat([Lossy(got)]) == Lossy(got) by {
      assert [Lossy(got)][1..] == [];
    }
    console.Print(Lossy(got));
    return Ok(());
  }

  /** `-n`: up to `n` calls of `read_line` into a reused buffer, stopping at end of input. */
  method EmitLines(file: Reader, n: nat, console: Console) returns (r: Result<(), IoError>)
    requires file.Valid()
    modifies file, console
    ensures var e := LinesFrom(LinesAt(file.src.data, old(file.pos)), file.src.ending, n);
            console.out == old(console.out) + e.Printed() && r == StatusOf(e)
    ensures console.err == old(console.err)
  {
    ghost var ending := file.src.ending;
    ghost var lines := LinesAt(file.src.data, file.pos);
    ghost var whole := LinesFrom(lines, ending, n);
    var line: Bytes := [];
    for i := 0 to n
      invariant file.Valid() && line == [] && lines == LinesAt(file.src.data, file.pos)
      invariant console.out + LinesFrom(lines, ending, n - i).Printed() == old(console.out) + whole.Printed()
      invariant LinesFrom(lines, ending, n - i).failure == whole.failure
      invariant console.err == old(console.err)
    {
      ghost var next := FirstLine(lines, ending);
      var bytes;
      bytes, line := file.ReadLine(line);
      assert next.Err? ==> bytes == Err(next.error);
      assert next.Ok? ==> bytes == Ok(|next.value|) && line == next.value;
      if bytes.Err? || bytes.value == 0 {
        LinesStop(console.out, lines, ending, n - i);
        if bytes.Err? {
          return Err(bytes.error);
        }
        break;
      }
      EmptyConcat(next.value);
      LinesAdvance(console.out, lines, ending, n - i, line);
      console.Print(line);
      lines := lines[1..];
      line := [];
    }
    LinesNone(console.out, lines, ending);
    return Ok(());
  }

  /**
   * `run`: for each name in order, open it; report a failed open on standard
   * error and go on; otherwise print the header when there is more than one
   * name, then the first bytes or lines.  A failed read ends the run with
   * that error.
   */
  method Run(config: Config, env: Env, console: Console) returns (r: Result<(), IoError>)
    modifies console
    ensures console.out == old(console.out) + RunSpec(config, env).out
    ensures console.err == old(console.err) + RunSpec(config, env).err
    ensures r == RunSpec(config, env).status
  {
    var numFiles := |config.files|;
    for fileNum := 0 to numFiles
      invariant console.out == old(console.out) + Steps(config, env, fileNum).out
      invariant console.err == old(console.err) + Steps(config, env, fileNum).err
      invariant Steps(config, env, fileNum).status.Ok?
    {
      ghost var before := Steps(config, env, fileNum);
      StepsNext(config, env, fileNum);
      var filename := config.files[fileNum];
      match Open(filename, env)
      case Err(cause) =>
        console.EPrint(filename + COLON_SPACE + cause + [NEWLINE]);
        Regroup(old(console.err), before.err, Diagnostic(filename, cause));
        assert before.out + [] == before.out;
      case Ok(src) =>
        ghost var body := Body(config, src);
        var file := new Reader(src);
        if numFiles > 1 {
          console.Print((if fileNum > 0 then [NEWLINE] else []) + HeaderLine(filename));
        }
        assert console.out == old(console.out) + before.out + Header(config, fileNum);
        var status;
        if config.bytes.Some? {
          status := EmitBytes(file, config.bytes.value, console);
        } else {
          status := EmitLines(file, config.lines, console);
        }
        Regroup4(old(console.out), before.out, Header(config, fileNum), body.Printed());
        assert before.err + [] == before.err;
        if status.Err? {
          FoldAbortIsFinal(FileSteps(config, env), fileNum + 1, numFiles);
          return status;
        }
    }
    return Ok(());
  }
}

=== FILE: headr_spec.dfy ===
/**
 * What headr's `run` produces, as functions of the configuration and the
 * environment: the bytes it writes to standard output and standard error and
 * whether it ends in an error.  Steps follows the loop over the file list; the
 * lemmas state the header rule, the two emission modes, per-file isolation of
 * open errors, and that a read error ends the run.
 */
module HeadrSpec {
  import opened Wrappers
  import opened Utf8
  import opened Lines
  import opened HeadrIo
  import opened Seqs

  /** headr's parsed options: the file names in order, `-n` and `-c`. */
  datatype Config = Config(files: seq<Bytes>, lines: nat, bytes: Option<nat>)

  /** What one file contributes: the pieces printed, in order, and the read error that stopped it, if any. */
  datatype Emission = Emission(chunks: seq<Bytes>, failure: Option<IoError>) {
    function Printed(): Bytes {
      Concat(chunks)
    }
  }

  /** Everything a (partial) run has written, and how it stands: Err once a read has failed. */
  datatype Outcome = Outcome(out: Bytes, err: Bytes, status: Result<(), IoError>)

  /** `"==> "` */
  const HEADER_OPEN: Bytes := [0x3D, 0x3D, 0x3E, 0x20]
  /** `" <==\n"` */
  const HEADER_CLOSE: Bytes := [0x20, 0x3C, 0x3D, 0x3D, NEWLINE]
  /** `": "` */
  const COLON_SPACE: Bytes := [0x3A, 0x20]

  /** The header line for `name`. */
  function HeaderLine(name: Bytes): Bytes {
    HEADER_OPEN + name + HEADER_CLOSE
  }

  /** What is printed before the `i`-th file's content once it has opened. */
  function Header(config: Config, i: nat): (h: Bytes)
    requires i < |config.files|
  {
    if |config.files| > 1 then (if i > 0 then [NEWLINE] else []) + HeaderLine(config.files[i]) else []
  }

  /**
   * The header rule: nothing when the list has a single name; otherwise the
   * header line, after a newline unless the name is the first of the list.
   */
  lemma HeaderRule(config: Config, i: nat)
    requires i < |config.files|
    ensures |config.files| == 1 ==> Header(config, i) == []
    ensures |config.files| > 1 && i == 0 ==> Header(config, i) == HeaderLine(config.files[i])
    ensures |config.files| > 1 && i > 0 ==> Header(config, i) == [NEWLINE] + HeaderLine(config.files[i])
  {
    if |config.files| > 1 && i == 0 {
      assert [] + HeaderLine(config.files[i]) == HeaderLine(config.files[i]);
    }
  }

  /** The standard-error line for a name that could not be opened. */
  function Diagnostic(name: Bytes, cause: Cause): Bytes {
    name + COLON_SPACE + cause + [NEWLINE]
  }

  /**
   * Line mode over the lines `ls` still to be read: up to `m` of them, in
   * order.  A line that runs into the stream's error before its newline, or
   * that is not well-formed UTF-8, ends it with that error; running out of
   * lines ends it with the stream's error, if it has one.
   */
  function LinesFrom(ls: seq<Bytes>, ending: Ending, m: nat): Emission
    decreases m
  {
    if m == 0 then Emission([], None)
    else
      match FirstLine(ls, ending)
      case Err(e) => Emission([], Some(e))
      case Ok(line) =>
        if line == [] then Emission([], None)
        else
          var more := LinesFrom(ls[1..], ending, m - 1);
          Emission([line] + more.chunks, more.failure)
  }

  /** `-n`: the first `n` lines of a freshly opened source. */
  function HeadLines(src: Source, n: nat): Emission {
    LinesFrom(SplitLines(src.data), src.ending, n)
  }

  /** `-c`: one `read` of at most `n` bytes, printed after permissive UTF-8 decoding. */
  function HeadBytes(src: Source, n: nat): Emission {
    match ReadAt(src, 0, n)
    case Ok(got) => Emission([Lossy(got)], None)
    case Err(e) => Emission([], Some(e))
  }

  /** A byte count, when given, takes precedence over the line count. */
  function Body(config: Config, src: Source): Emission {
    if config.bytes.Some? then HeadBytes(src, config.bytes.value) else HeadLines(src, config.lines)
  }

  function StatusOf(e: Emission): Result<(), IoError> {
    if e.failure.Some? then Err(e.failure.value) else Ok(())
  }

  /** What handling the `i`-th name writes, and whether it fails. */
  function FileStep(config: Config, env: Env, i: nat): Outcome
    requires i < |config.files|
  {
    var name := config.files[i];
    match Open(name, env)
    case Err(cause) => Outcome([], Diagnostic(name, cause), Ok(()))
    case Ok(src) =>
      var body := Body(config, src);
      Outcome(Header(config, i) + body.Printed(), [], StatusOf(body))
  }

  /** One outcome followed by another. */
  function Then(a: Outcome, b: Outcome): Outcome {
    Outcome(a.out + b.out, a.err + b.err, b.status)
  }

  /** The loop over per-name outcomes after the first `k` of them: each is appended in turn, and a failed one stops the loop. */
  function Fold(steps: seq<Outcome>, k: nat): Outcome
    requires k <= |steps|
  {
    if k == 0 then Outcome([], [], Ok(()))
    else
      var prev := Fold(steps, k - 1);
      if prev.status.Err? then prev else Then(prev, steps[k - 1])
  }

  /** A reference reading of the same loop: outcome `i`, then the rest unless it failed. */
  function FoldFrom(steps: seq<Outcome>, i: nat): Outcome
    requires i <= |steps|
    decreases |steps| - i
  {
    if i == |steps| then Outcome([], [], Ok(()))
    else if steps[i].status.Err? then steps[i]
    else Then(steps[i], FoldFrom(steps, i + 1))
  }

  /** What handling each name on its own writes, in list order. */
  function FileSteps(config: Config, env: Env): (steps: seq<Outcome>)
    ensures |steps| == |config.files|
  {
    seq(|config.files|, i requires 0 <= i < |config.files| => FileStep(config, env, i))
  }

  /** The state after the loop has handled the first `k` names. */
  function Steps(config: Config, env: Env, k: nat): Outcome
    requires k <= |config.files|
  {
    Fold(FileSteps(config, env), k)
  }

  /** `run` over the whole list. */
  function RunSpec(config: Config, env: Env): Outcome {
    Steps(config, env, |config.files|)
  }

  // ---------------------------------------------------------------- line mode

  /** A line read and printed: what is printed so far plus what the remaining calls print is unchanged. */
  lemma LinesAdvance(printed: Bytes, ls: seq<Bytes>, ending: Ending, m: nat, line: Bytes)
    requires m > 0 && FirstLine(ls, ending) == Ok(line) && line != []
    ensures ls != []
    ensures (printed + line) + LinesFrom(ls[1..], ending, m - 1).Printed() == printed + LinesFrom(ls, ending, m).Printed()
    ensures LinesFrom(ls[1..], ending, m - 1).failure == LinesFrom(ls, ending, m).failure
  {
    var more := LinesFrom(ls[1..], ending, m - 1);
    assert LinesFrom(ls, ending, m).chunks == [line] + more.chunks;
    assert ([line] + more.chunks)[1..] == more.chunks;
    Regroup(printed, line, more.Printed());
  }

  /** A `read_line` that fails or returns 0 leaves nothing more to print, and its error (if any) is the failure. */
  lemma LinesStop(printed: Bytes, ls: seq<Bytes>, ending: Ending, m: nat)
    requires m > 0 && (FirstLine(ls, ending).Err? || FirstLine(ls, ending) == Ok([]))
    ensures var e := LinesFrom(ls, ending, m);
            printed + e.Printed() == printed &&
            e.failure == (if FirstLine(ls, ending).Err? then Some(FirstLine(ls, ending).error) else None)
  {
    assert LinesFrom(ls, ending, m).chunks == [];
  }

  /** No calls left: nothing more to print. */
  lemma LinesNone(printed: Bytes, ls: seq<Bytes>, ending: Ending)
    ensures printed + LinesFrom(ls, ending, 0).Printed() == printed
    ensures LinesFrom(ls, ending, 0).failure.None?
  {
    assert LinesFrom(ls, ending, 0).chunks == [];
  }

  /**
   * Line mode prints the first k lines, in order, k at most the count asked
   * for; when no read failed, k is the smaller of the count and the number
   * of lines.
   */
  lemma {:induction false} LinesFromAreFirstLines(ls: seq<Bytes>, ending: Ending, m: nat)
    requires WellFormedLines(ls)
    ensures var e := LinesFrom(ls, ending, m);
            |e.chunks| <= m && |e.chunks| <= |ls| && e.chunks == ls[..|e.chunks|] &&
            (e.failure.None? ==> |e.chunks| == Min(m, |ls|))
    decreases m
  {
    var first := FirstLine(ls, ending);
    if ls != [] {
      WellFormedTail(ls);
    }
    if m > 0 && first.Ok? && first.value != [] {
      LinesFromAreFirstLines(ls[1..], ending, m - 1);
      var more := LinesFrom(ls[1..], ending, m - 1);
      assert ls[..1 + |more.chunks|] == [ls[0]] + ls[1..][..|more.chunks|];
    }
  }

  /**
   * Why line mode stops early, given well-formed lines: it stops at the first
   * line `read_line` rejects, every line before it having been accepted.  A
   * line is rejected when the stream's error is reached before its newline
   * (after the last line, or inside an unterminated last line), or else when
   * it is not UTF-8.  A source that ends cleanly and holds only UTF-8 lines
   * never fails.
   */
  lemma {:induction false} LinesFromFailure(ls: seq<Bytes>, ending: Ending, m: nat)
    requires WellFormedLines(ls)
    ensures var e := LinesFrom(ls, ending, m);
            var k := |e.chunks|;
            k <= |ls| &&
            (forall i :: 0 <= i < k ==> ValidUtf8(ls[i]) && (ending.Fail? ==> Terminated(ls[i]))) &&
            (e.failure == Some(InvalidUtf8) ==>
               k < m && k < |ls| && !ValidUtf8(ls[k]) && (ending.Eof? || Terminated(ls[k]))) &&
            (e.failure.Some? && e.failure.value.Os? ==>
               k < m && ending == Fail(e.failure.value.cause) &&
               (k == |ls| || (k + 1 == |ls| && !Terminated(ls[k])))) &&
            (ending == Eof && (forall i :: 0 <= i < |ls| ==> ValidUtf8(ls[i])) ==> e.failure.None?) &&
            (e.failure.None? && ending.Fail? ==> k == m)
    decreases m
  {
    var first := FirstLine(ls, ending);
    if m > 0 && first.Ok? && first.value != [] {
      var rest := ls[1..];
      WellFormedTail(ls);
      LinesFromFailure(rest, ending, m - 1);
      assert forall i :: 0 <= i < |rest| ==> rest[i] == ls[i + 1];
    } else if m > 0 && ls != [] && !Terminated(ls[0]) && ending.Fail? {
      assert |ls| == 1;
    }
  }

  /** `-n N` prints exactly the first min(N, line count) lines when no read fails, and always a prefix of the source. */
  lemma HeadLinesAreFirstLines(src: Source, n: nat)
    ensures var e := HeadLines(src, n);
            var ls := SplitLines(src.data);
            |e.chunks| <= n && |e.chunks| <= |ls| && e.chunks == ls[..|e.chunks|] && e.Printed() <= src.data &&
            (e.failure.None? ==> e.Printed() == Concat(ls[..Min(n, |ls|)]))
  {
    var ls := SplitLines(src.data);
    SplitLinesWellFormed(src.data);
    LinesFromAreFirstLines(ls, src.ending, n);
    ConcatPrefix(ls, |HeadLines(src, n).chunks|);
    SplitLinesConcat(src.data);
  }

  /** `-n N` fails only as LinesFromFailure says, on the source's own lines. */
  lemma HeadLinesFailure(src: Source, n: nat)
    ensures var e := HeadLines(src, n);
            var ls := SplitLines(src.data);
            var k := |e.chunks|;
            k <= |ls| &&
            (forall i :: 0 <= i < k ==> ValidUtf8(ls[i]) && (src.ending.Fail? ==> Terminated(ls[i]))) &&
            (e.failure == Some(InvalidUtf8) ==>
               k < n && k < |ls| && !ValidUtf8(ls[k]) && (src.ending.Eof? || Terminated(ls[k]))) &&
            (e.failure.Some? && e.failure.value.Os? ==>
               k < n && src.ending == Fail(e.failure.value.cause) &&
               (k == |ls| || (k + 1 == |ls| && !Terminated(ls[k])))) &&
            (src.ending == Eof && (forall i :: 0 <= i < |ls| ==> ValidUtf8(ls[i])) ==> e.failure.None?) &&
            (e.failure.None? && src.ending.Fail? ==> k == n)
  {
    SplitLinesWellFormed(src.data);
    LinesFromFailure(SplitLines(src.data), src.ending, n);
  }

  // ---------------------------------------------------------------- byte mode

  /**
   * `-c N` prints one read's worth of the source, decoded: a prefix of at most
   * N bytes (at least one byte when the source has any), unchanged when it is
   * well-formed UTF-8; it fails only when the source is empty and ends in an
   * error.
   */
  lemma HeadBytesIsPrefix(src: Source, n: nat)
    ensures var e := HeadBytes(src, n);
            (e.failure.Some? <==> n > 0 && src.data == [] && src.ending.Fail?) &&
            (e.failure.None? ==>
               var got := ReadAt(src, 0, n).value;
               got <= src.data && |got| <= n &&
               (n > 0 && src.data != [] ==> got != []) &&
               e.Printed() == Lossy(got) && ValidUtf8(e.Printed()) &&
               (ValidUtf8(got) ==> e.Printed() == got))
  {
    var e := HeadBytes(src, n);
    if e.failure.None? {
      var got := ReadAt(src, 0, n).value;
      assert e.chunks == [Lossy(got)];
      assert Concat([Lossy(got)]) == Lossy(got) by {
        assert [Lossy(got)][1..] == [];
      }
      LossyIsValid(got);
      if ValidUtf8(got) {
        LossyOfValid(got);
      }
    }
  }

  // ---------------------------------------------------------------- run

  lemma ThenAssociative(a: Outcome, b: Outcome, c: Outcome)
    ensures Then(Then(a, b), c) == Then(a, Then(b, c))
  {
    Regroup(a.out, b.out, c.out);
    Regroup(a.err, b.err, c.err);
  }

  /** Once an outcome has failed nothing more happens: later outcomes are not looked at. */
  lemma {:induction false} FoldAbortIsFinal(steps: seq<Outcome>, k: nat, k': nat)
    requires k <= k' <= |steps|
    requires Fold(steps, k).status.Err?
    ensures Fold(steps, k') == Fold(steps, k)
    decreases k'
  {
    if k' > k {
      FoldAbortIsFinal(steps, k, k' - 1);
    }
  }

  /** Output only grows, so what an earlier name wrote stays ahead of what a later name writes, on both streams. */
  lemma {:induction false} FoldGrows(steps: seq<Outcome>, k: nat, k': nat)
    requires k <= k' <= |steps|
    ensures Fold(steps, k).out <= Fold(steps, k').out
    ensures Fold(steps, k).err <= Fold(steps, k').err
    decreases k'
  {
    if k' > k {
      FoldGrows(steps, k, k' - 1);
      var prev := Fold(steps, k' - 1);
      if prev.status.Ok? {
        assert prev.out <= prev.out + steps[k' - 1].out;
        assert prev.err <= prev.err + steps[k' - 1].err;
      }
    }
  }

  /** The loop's state after `k` outcomes, continued by the reference reading from there, is the whole loop. */
  lemma {:induction false} FoldThenRest(steps: seq<Outcome>, k: nat)
    requires k <= |steps|
    requires Fold(steps, k).status.Ok?
    ensures Fold(steps, |steps|) == Then(Fold(steps, k), FoldFrom(steps, k))
    decreases |steps| - k
  {
    var prev := Fold(steps, k);
    if k == |steps| {
      assert FoldFrom(steps, k) == Outcome([], [], Ok(()));
      assert prev.status.value == ();
      assert prev.out + [] == prev.out && prev.err + [] == prev.err;
    } else if steps[k].status.Err? {
      FoldAbortIsFinal(steps, k + 1, |steps|);
    } else {
      FoldThenRest(steps, k + 1);
      ThenAssociative(prev, steps[k], FoldFrom(steps, k + 1));
    }
  }

  /**
   * Standard output is each name's output in list order, standard error each
   * failed open's diagnostic in list order, up to and including the first
   * name whose read fails.
   */
  lemma RunInListOrder(config: Config, env: Env)
    ensures RunSpec(config, env) == FoldFrom(FileSteps(config, env), 0)
  {
    var steps := FileSteps(config, env);
    FoldThenRest(steps, 0);
    var r := FoldFrom(steps, 0);
    assert [] + r.out == r.out && [] + r.err == r.err;
  }

  /** One more name: the state so far followed by what that name writes. */
  lemma StepsNext(config: Config, env: Env, i: nat)
    requires i < |config.files|
    requires Steps(config, env, i).status.Ok?
    ensures Steps(config, env, i + 1) == Then(Steps(config, env, i), FileStep(config, env, i))
  {
  }

  /**
   * A name that cannot be opened adds exactly its diagnostic to standard error,
   * nothing to standard output, and the loop goes on.
   */
  lemma OpenFailureIsolated(config: Config, env: Env, i: nat)
    requires i < |config.files|
    requires Steps(config, env, i).status.Ok?
    requires Open(config.files[i], env).Err?
    ensures var before := Steps(config, env, i);
            Steps(config, env, i + 1) ==
              Outcome(before.out, before.err + Diagnostic(config.files[i], Open(config.files[i], env).error), Ok(()))
  {
    StepsNext(config, env, i);
    var before := Steps(config, env, i);
    assert before.out + [] == before.out;
  }

  /** Handling a name that opens appends its header and its content to standard output, and nothing to standard error. */
  lemma OpenedStep(config: Config, env: Env, i: nat)
    requires i < |config.files|
    requires Steps(config, env, i).status.Ok?
    requires Open(config.files[i], env).Ok?
    ensures var before := Steps(config, env, i);
            var body := Body(config, Open(config.files[i], env).value);
            Steps(config, env, i + 1) == Outcome(before.out + (Header(config, i) + body.Printed()), before.err, StatusOf(body))
  {
    StepsNext(config, env, i);
    var before := Steps(config, env, i);
    assert before.err + [] == before.err;
  }

  /**
   * A name that opens prints its header (only when the list has more than one
   * name, failed names included; with a blank line before it unless it is the
   * first name of the list) and then its content.
   */
  lemma OpenedFilePrinted(config: Config, env: Env, i: nat)
    requires i < |config.files|
    requires Steps(config, env, i).status.Ok?
    requires Open(config.files[i], env).Ok?
    ensures var before := Steps(config, env, i);
            var body := Body(config, Open(config.files[i], env).value);
            var after := Steps(config, env, i + 1);
            after.err == before.err && after.status == StatusOf(body) &&
            (|config.files| == 1 ==> after.out == before.out + body.Printed()) &&
            (|config.files| > 1 && i == 0 ==> after.out == before.out + HeaderLine(config.files[i]) + body.Printed()) &&
            (|config.files| > 1 && i > 0 ==> after.out == before.out + [NEWLINE] + HeaderLine(config.files[i]) + body.Printed())
  {
    OpenedStep(config, env, i);
    HeaderRule(config, i);
    var before := Steps(config, env, i);
    var printed := Body(config, Open(config.files[i], env).value).Printed();
    var header := Header(config, i);
    if |config.files| == 1 {
      assert [] + printed == printed;
    } else if i == 0 {
      Regroup(before.out, header, printed);
    } else {
      Regroup4(before.out, [NEWLINE], HeaderLine(config.files[i]), printed);
    }
  }

  /** With two names of which the first cannot be opened, the second's header still starts with a blank line. */
  lemma FailedFirstStillSeparated(config: Config, env: Env)
    requires |config.files| == 2
    requires Open(config.files[0], env).Err? && Open(config.files[1], env).Ok?
    ensures var body := Body(config, Open(config.files[1], env).value);
            RunSpec(config, env) ==
              Outcome([NEWLINE] + HeaderLine(config.files[1]) + body.Printed(),
                      Diagnostic(config.files[0], Open(config.files[0], env).error),
                      StatusOf(body))
  {
    OpenFailureIsolated(config, env, 0);
    OpenedFilePrinted(config, env, 1);
  }

  /** A single name in line mode: no header, just the first min(N, line count) lines when reading succeeds. */
  lemma SingleFileNoHeader(config: Config, env: Env)
    requires |config.files| == 1 && config.bytes.None?
    requires Open(config.files[0], env).Ok?
    requires HeadLines(Open(config.files[0], env).value, config.lines).failure.None?
    ensures var src := Open(config.files[0], env).value;
            var ls := SplitLines(src.data);
            RunSpec(config, env) == Outcome(Concat(ls[..Min(config.lines, |ls|)]), [], Ok(()))
  {
    var src := Open(config.files[0], env).value;
    HeadLinesAreFirstLines(src, config.lines);
    StepsNext(config, env, 0);
    assert [] + Concat(SplitLines(src.data)[..Min(config.lines, |SplitLines(src.data)|)]) == Concat(SplitLines(src.data)[..Min(config.lines, |SplitLines(src.data)|)]);
  }


  /** With a byte count given the line count plays no part. */
  lemma BytesOverrideLines(config: Config, env: Env, lines: nat)
    requires config.bytes.Some?
    ensures RunSpec(config.(lines := lines), env) == RunSpec(config, env)
  {
    var other := config.(lines := lines);
    forall i | 0 <= i < |config.files|
      ensures FileSteps(other, env)[i] == FileSteps(config, env)[i]
    {
      assert Header(other, i) == Header(config, i);
    }
    assert FileSteps(other, env) == FileSteps(config, env);
  }
}

=== FILE: lines.dfy ===
/**
 * Lines as `BufRead::read_line` delivers them: a line runs up to and
 * including the next newline byte, or to the end of the data; the newline
 * is kept.  SplitLines is the reference division of a byte sequence into
 * such lines, against which headr's line mode is proved.
 */
module Lines {
  import opened Utf8

  const NEWLINE: byte := 0x0A

  /** A line ends with its newline. */
  predicate Terminated(l: Bytes) {
    l != [] && l[|l| - 1] == NEWLINE
  }

  /** A non-empty piece of data with no newline before its last byte. */
  predicate IsLine(l: Bytes) {
    l != [] && forall i :: 0 <= i < |l| - 1 ==> l[i] != NEWLINE
  }

  /** Length of the first line of `d`: through the first newline, or all of `d`. */
  function LineLength(d: Bytes): (k: nat)
    ensures k <= |d|
    ensures k == |d| || Terminated(d[..k])
    decreases |d|
  {
    if d == [] then 0
    else if d[0] == NEWLINE then 1
    else
      var k := 1 + LineLength(d[1..]);
      assert d[..k] == [d[0]] + d[1..][..k - 1];
      k
  }

  /** The first line of non-empty data is a line: no newline before its end. */
  lemma {:induction false} LineLengthIsLine(d: Bytes)
    requires d != []
    ensures IsLine(d[..LineLength(d)])
    decreases |d|
  {
    if d[0] != NEWLINE && d[1..] != [] {
      LineLengthIsLine(d[1..]);
      var k := LineLength(d);
      assert d[..k] == [d[0]] + d[1..][..k - 1];
    }
  }

  /** `d` cut into its lines, in order. */
  function SplitLines(d: Bytes): seq<Bytes>
    decreases |d|
  {
    if d == [] then [] else [d[..LineLength(d)]] + SplitLines(d[LineLength(d)..])
  }

  function Concat(ls: seq<Bytes>): Bytes {
    if ls == [] then [] else ls[0] + Concat(ls[1..])
  }

  /** Every piece is a line, and all but the last end with a newline. */
  predicate WellFormedLines(ls: seq<Bytes>) {
    forall i :: 0 <= i < |ls| ==> IsLine(ls[i]) && (i + 1 < |ls| ==> Terminated(ls[i]))
  }

  /** After the first line come the lines of what follows it. */
  lemma SplitLinesTail(d: Bytes)
    requires d != []
    ensures var ls := SplitLines(d);
            ls != [] && |ls[0]| <= |d| && SplitLines(d[|ls[0]|..]) == ls[1..]
  {
  }

  /** The lines after the first are well formed too. */
  lemma WellFormedTail(ls: seq<Bytes>)
    requires WellFormedLines(ls) && ls != []
    ensures ls[0] != [] && WellFormedLines(ls[1..])
  {
    var rest := ls[1..];
    forall i | 0 <= i < |rest|
      ensures IsLine(rest[i]) && (i + 1 < |rest| ==> Terminated(rest[i]))
    {
      assert rest[i] == ls[i + 1];
    }
  }

  /** Splitting loses and reorders nothing: the lines put back together are the data. */
  lemma {:induction false} SplitLinesConcat(d: Bytes)
    ensures Concat(SplitLines(d)) == d
    decreases |d|
  {
    if d != [] {
      var k := LineLength(d);
      SplitLinesConcat(d[k..]);
      assert d[..k] + d[k..] == d;
    }
  }

  /** Splitting yields well-formed lines. */
  lemma {:induction false} SplitLinesWellFormed(d: Bytes)
    ensures WellFormedLines(SplitLines(d))
    decreases |d|
  {
    if d != [] {
      var k := LineLength(d);
      LineLengthIsLine(d);
      SplitLinesWellFormed(d[k..]);
      var ls := SplitLines(d);
      forall i | 0 <= i < |ls|
        ensures IsLine(ls[i]) && (i + 1 < |ls| ==> Terminated(ls[i]))
      {
        if i == 0 && 1 < |ls| {
          assert SplitLines(d[k..]) != [];
          assert k < |d|;
        }
      }
    }
  }

  /** The first line of a line followed by more data is that line. */
  lemma LineLengthOfLine(l: Bytes, rest: Bytes)
    requires IsLine(l)
    requires Terminated(l) || rest == []
    ensures LineLength(l + rest) == |l|
  {
    var s := l + rest;
    var k := LineLength(s);
    LineLengthIsLine(s);
    assert forall i :: 0 <= i < |l| ==> s[i] == l[i];
  }

  /** The other way round: well-formed lines put together split back into themselves. */
  lemma {:induction false} ConcatSplitLines(ls: seq<Bytes>)
    requires WellFormedLines(ls)
    ensures SplitLines(Concat(ls)) == ls
    decreases |ls|
  {
    if ls != [] {
      var d := Concat(ls);
      assert WellFormedLines(ls[1..]) by {
        forall i | 0 <= i < |ls[1..]|
          ensures IsLine(ls[1..][i]) && (i + 1 < |ls[1..]| ==> Terminated(ls[1..][i]))
        {
          assert ls[1..][i] == ls[i + 1];
        }
      }
      ConcatSplitLines(ls[1..]);
      assert |ls| == 1 ==> Concat(ls[1..]) == [];
      LineLengthOfLine(ls[0], Concat(ls[1..]));
      assert d[..|ls[0]|] == ls[0];
      assert d[|ls[0]|..] == Concat(ls[1..]);
    }
  }

  /** The first `k` lines put together are a prefix of the whole. */
  lemma {:induction false} ConcatPrefix(ls: seq<Bytes>, k: nat)
    requires k <= |ls|
    ensures Concat(ls[..k]) <= Concat(ls)
    decreases k
  {
    if k > 0 {
      ConcatPrefix(ls[1..], k - 1);
      assert ls[..k][1..] == ls[1..][..k - 1];
    }
  }
}

=== FILE: seqs.dfy ===
/** Regrouping of concatenations, stated once over abstract sequences so that proofs about concrete terms stay small. */
module Seqs {
  lemma Regroup<T>(a: seq<T>, b: seq<T>, c: seq<T>)
    ensures a + b + c == a + (b + c)
  {
  }

  lemma Regroup4<T>(a: seq<T>, b: seq<T>, c: seq<T>, d: seq<T>)
    ensures a + b + c + d == a + (b + (c + d))
  {
  }

  lemma DropDrop<T>(s: seq<T>, i: nat, j: nat)
    requires i + j <= |s|
    ensures s[i..][j..] == s[i + j..]
  {
  }

  lemma EmptyConcat<T>(s: seq<T>)
    ensures [] + s == s
  {
  }
}

=== FILE: utf8.dfy ===
/**
 * Bytes and the UTF-8 encoding form of RFC 3629 (well-formed sequences as listed
 * in table 3-7 of the Unicode Standard).  Rust's `String` holds UTF-8 bytes, so
 * everything headr reads, validates or decodes is modelled over these bytes.
 */
module Utf8 {
  newtype byte = x: int | 0 <= x < 256

  type Bytes = seq<byte>

  /** Length of the encoding that lead byte `b` starts, or 0 when `b` cannot start one. */
  function Width(b: byte): (w: nat)
    ensures w <= 4
    ensures w == 1 <==> b < 0x80
  {
    if b < 0x80 then 1
    else if 0xC2 <= b < 0xE0 then 2
    else if 0xE0 <= b < 0xF0 then 3
    else if 0xF0 <= b < 0xF5 then 4
    else 0
  }

  predicate IsContinuation(b: byte) {
    0x80 <= b < 0xC0
  }

  /** The second byte after `lead`: narrower ranges exclude overlong forms, surrogates and values above U+10FFFF. */
  predicate SecondFits(lead: byte, b: byte) {
    if lead == 0xE0 then 0xA0 <= b < 0xC0
    else if lead == 0xED then 0x80 <= b < 0xA0
    else if lead == 0xF0 then 0x90 <= b < 0xC0
    else if lead == 0xF4 then 0x80 <= b < 0x90
    else IsContinuation(b)
  }

  /** Whether `b` may stand at position `i` (1 to 3) of an encoding that starts with `lead`. */
  predicate Fits(lead: byte, i: nat, b: byte) {
    if i == 1 then SecondFits(lead, b) else IsContinuation(b)
  }

  /** How far the bytes of `s` from position `i` on keep fitting the encoding its lead byte starts. */
  function MatchedFrom(s: Bytes, i: nat): (m: nat)
    requires 0 < i <= |s| && i <= Width(s[0])
    ensures i <= m <= |s| && m <= Width(s[0])
    decreases Width(s[0]) - i
  {
    if i == Width(s[0]) || i == |s| || !Fits(s[0], i, s[i]) then i else MatchedFrom(s, i + 1)
  }

  /** Length of the longest prefix of `s` that is a prefix of some well-formed encoding. */
  function Matched(s: Bytes): (m: nat)
    ensures m <= |s|
    ensures |s| > 0 ==> m <= Width(s[0])
    ensures |s| > 0 && Width(s[0]) > 0 ==> m >= 1
  {
    if |s| == 0 || Width(s[0]) == 0 then 0 else MatchedFrom(s, 1)
  }

  /** Length of the complete encoded scalar value that starts `s`, or 0 when there is none. */
  function ScalarLength(s: Bytes): (k: nat)
    ensures k <= |s| && k <= 4
    ensures k > 0 ==> k == Width(s[0]) && Matched(s) == k
  {
    if |s| > 0 && Width(s[0]) > 0 && Matched(s) == Width(s[0]) then Width(s[0]) else 0
  }

  /** `s` is a sequence of complete, well-formed encodings. */
  predicate ValidUtf8(s: Bytes)
    decreases |s|
  {
    s == [] || (ScalarLength(s) > 0 && ValidUtf8(s[ScalarLength(s)..]))
  }

  /** U+FFFD REPLACEMENT CHARACTER, encoded. */
  const REPLACEMENT: Bytes := [0xEF, 0xBF, 0xBD]

  /**
   * Permissive decoding followed by re-encoding: every complete encoding is kept,
   * every maximal ill-formed subpart (one invalid lead byte, or the longest
   * truncated prefix of an encoding) becomes one REPLACEMENT.
   */
  function Lossy(s: Bytes): (r: Bytes)
    decreases |s|
  {
    if s == [] then []
    else if ScalarLength(s) > 0 then s[..ScalarLength(s)] + Lossy(s[ScalarLength(s)..])
    else REPLACEMENT + Lossy(s[if Matched(s) == 0 then 1 else Matched(s)..])
  }

  /** A complete encoding is recognised from its own bytes, whatever follows them. */
  lemma {:induction false} MatchedFromPrefix(s: Bytes, t: Bytes, i: nat)
    requires 0 < i <= |s| && i <= Width(s[0])
    requires MatchedFrom(s, i) == Width(s[0])
    requires |t| >= MatchedFrom(s, i) && t[..MatchedFrom(s, i)] == s[..MatchedFrom(s, i)]
    ensures t[0] == s[0] && i <= |t| && MatchedFrom(t, i) == MatchedFrom(s, i)
    decreases Width(s[0]) - i
  {
    var m := MatchedFrom(s, i);
    assert t[0] == s[..m][0] && s[0] == s[..m][0];
    assert forall j :: 0 <= j < m ==> t[j] == s[j] by {
      forall j | 0 <= j < m ensures t[j] == s[j] { assert t[j] == t[..m][j]; }
    }
    if m > i {
      MatchedFromPrefix(s, t, i + 1);
    }
  }

  /** Only the first `|a|` bytes decide the scalar that starts `a + b` when `a` is one complete scalar. */
  lemma ScalarPrefix(a: Bytes, b: Bytes)
    requires ScalarLength(a) == |a| > 0
    ensures ScalarLength(a + b) == |a|
  {
    var s := a + b;
    assert s[..|a|] == a[..|a|];
    MatchedFromPrefix(a, s, 1);
  }

  /** The scalar at the head of `s`, cut out, is itself a complete scalar. */
  lemma ScalarCut(s: Bytes)
    requires ScalarLength(s) > 0
    ensures ScalarLength(s[..ScalarLength(s)]) == ScalarLength(s)
  {
    var k := ScalarLength(s);
    var t := s[..k];
    assert t[..k] == s[..k];
    MatchedFromPrefix(s, t, 1);
  }

  /** A complete scalar followed by valid text is valid text. */
  lemma ValidPrepend(a: Bytes, b: Bytes)
    requires ScalarLength(a) == |a| > 0
    requires ValidUtf8(b)
    ensures ValidUtf8(a + b)
  {
    ScalarPrefix(a, b);
    assert (a + b)[|a|..] == b;
  }

  /** Decoding well-formed bytes permissively changes nothing. */
  lemma {:induction false} LossyOfValid(s: Bytes)
    requires ValidUtf8(s)
    ensures Lossy(s) == s
    decreases |s|
  {
    if s != [] {
      var k := ScalarLength(s);
      LossyOfValid(s[k..]);
      assert s[..k] + s[k..] == s;
    }
  }

  /** Whatever the input, permissive decoding yields well-formed UTF-8. */
  lemma {:induction false} LossyIsValid(s: Bytes)
    ensures ValidUtf8(Lossy(s))
    decreases |s|
  {
    if s != [] {
      var k := ScalarLength(s);
      if k > 0 {
        LossyIsValid(s[k..]);
        ScalarCut(s);
        ValidPrepend(s[..k], Lossy(s[k..]));
      } else {
        var skip := if Matched(s) == 0 then 1 else Matched(s);
        LossyIsValid(s[skip..]);
        assert ScalarLength(REPLACEMENT) == 3;
        ValidPrepend(REPLACEMENT, Lossy(s[skip..]));
      }
    }
  }
}

=== FILE: wrappers.dfy ===
/** Option and Result, the two failure-carrying types the model uses. */
module Wrappers {
  datatype Option<+T> = None | Some(value: T)

  datatype Result<+T, +E> = Ok(value: T) | Err(error: E)
}
